=== FILE: README.md ===
# syft-api remediation core in Dafny

The service wraps three tools behind HTTP handlers. Syft generates an SBOM
(software bill of materials), grype scans it for vulnerable packages, and a
local Ollama model writes an upgrade script from the scan. Under the I/O sit
four small decision procedures. This project models them, plus the two
remediation handlers that use them, and proves properties of the model:

- **Script-block extraction** (`extractScriptBlock`), module `ScriptBlock`. It
  finds the first "```bash" fence, or else the first "```", then skips 3
  characters, finds the next "```", skips 5 more characters and trims the
  slice. The literal offsets are kept. The case where Go's `rest[5:end]`
  panics is an explicit `Panicked` result.
- **Source resolution** in `generateSBOM`, module `SourceInput`. It turns the
  `source` query parameter into "dir:…" or "image:…" input for the SBOM
  generator, or into a 400 or 500 error reply. Whether `os.Stat` accepts the
  path and whether the git clone succeeds are parameters.
- **Package-type classification** in `scanSBOM`, module `PackageType`. It is
  a case-sensitive substring search with first-match precedence: python, then
  nodejs/npm, then java/maven, with "package" as the default.
- **Streamed-response aggregation** in `remediateWithOllama`, module
  `OllamaStream`. It reads newline-delimited JSON, keeps every string
  `message.content` in order and skips lines that do not decode. A read error
  fails the request. An empty result becomes a fixed placeholder.
- **The two remediation handlers**, module `Handlers`. `scanSBOM` and
  `remediateWithOllama` are modelled as functions from the results of their
  external calls to the reply they send.

Module `Text` models the Go `strings` functions these use: `Index`,
`Contains`, `HasPrefix` and `TrimSpace`. Module `Outcomes` holds the shapes of
the external results and of the replies.

Points of the code's behaviour that are easy to misread:

- For a bare fence, the fixed 5-character skip eats the first characters of
  the block. `"```\necho hi\n``` trailing"` therefore yields `"hi"`.
  `BareFenceLosesFiveCharacters` states this for every bare block with no
  "```" inside its body or running from the body into the closing fence;
  single backticks, as in "echo `date`", are allowed.
- `scanSBOM` makes a single model call. A failure of that call is a 500
  reply, and an extraction panic is not caught.
- Source resolution refuses the empty string before it calls `os.Stat`. Any
  `os.Stat` error (not only "does not exist") moves resolution on to the URL
  test. The two SBOM-reading handlers refuse only on "does not exist"; any
  other stat error lets them go on.

## Model

| member | source | states |
|---|---|---|
| Text.IndexOf | main.go:30-38 | `strings.Index`: -1 exactly when the pattern occurs nowhere; otherwise an occurrence with none before it |
| Text.Contains | main.go:169-175 | `strings.Contains`: true exactly when the pattern occurs at some position |
| Text.HasPrefix | main.go:85 | `strings.HasPrefix`: true exactly when the pattern occurs at position 0 |
| Text.HasPrefixIsIndexZero | main.go:85 | a prefix holds exactly when `strings.Index` finds it at 0, and exactly when the text is the prefix followed by some rest |
| Text.TrimSpace | main.go:42 | `strings.TrimSpace`: the result starts where leading white space ends, only white space follows it, and neither of its ends is white space |
| ScriptBlock.OpenerIndex | main.go:30-36 | -1 exactly when the text holds no "```"; otherwise the first "```bash", or the first "```" when there is no "```bash" anywhere |
| ScriptBlock.Extract | main.go:29-43 | a returned script is trimmed and contains no "```" of its own |
| ScriptBlock.NoFenceYieldsEmpty | main.go:29-36 | a text without "```" yields the empty script |
| ScriptBlock.UnterminatedFenceYieldsEmpty | main.go:37-41 | when no "```" starts 3 or more characters after the opener, the result is the empty script |
| ScriptBlock.ClosedFenceYields | main.go:37-42 | with opener p and closer c, the result is TrimSpace(text[p+8..c]) when c >= p+8; otherwise the call panics |
| ScriptBlock.PanicsExactlyWhenCloserTooNear | main.go:37-42 | the call panics if and only if an opener and its closer exist with the closer fewer than 8 characters past the opener's start |
| ScriptBlock.BashFencePreferred | main.go:30-33 | a "```bash" fence is used even when a bare "```" appears earlier in the text |
| ScriptBlock.BareFenceLosesFiveCharacters | main.go:32-42 | for a bare block "```"+body+"```"+tail with no "```bash" and no "```" within body+"``", the result is the trimmed body minus its first five characters; a body shorter than five characters panics |
| ScriptBlock.Markdown | main.go:209 | the re-wrap is 12 characters longer than the script: "```bash", a newline, the script itself, a newline and a closing "```" |
| ScriptBlock.RewrapRoundTrip | main.go:207-209 | extracting from "```bash\n"+s+"\n```" gives TrimSpace(s) for every s without "```" |
| ScriptBlock.RewrapIsStable | main.go:207-209 | re-extracting from the markdown re-wrap of an extracted script gives the same script back |
| PackageType.Classify | main.go:167-175 | the label is one of the four labels; each label holds exactly when its keyword group matches and no earlier group does |
| PackageType.ClassifyIsFirstMatch | main.go:167-175 | the if/else chain equals a generic first-match over the ordered groups (python; nodejs, npm; java, maven) with "package" as fallback |
| PackageType.PythonOutranksNode | main.go:169-172 | a text with both "npm" and "python" is a Python package |
| PackageType.CaseSensitive | main.go:169-175 | a text without lower-case 'p', 'd', 'j' or 'm' (for example "Python NPM Java Maven") gets the default label |
| SourceInput.Resolve | main.go:76-95 | a success starts with "dir:" or "image:"; the 400 error happens exactly for the empty source; the 500 error happens exactly for a non-path http(s) URL whose clone fails |
| SourceInput.Locate | main.go:83-95 | reference classification in priority order: no source exactly for the empty input, a local path exactly when a non-empty source exists, a remote repository exactly when it does not exist and is an http(s) URL, otherwise an image; the payload is the source itself |
| SourceInput.ResolveIsLocateThenRender | main.go:76-95 | resolution is the tagged classification followed by rendering the scheme-prefixed input |
| SourceInput.ResolvedInputRoundTrip | main.go:82-95 | reading the scheme back off a resolved input gives ("dir", source) for a path, ("dir", "/tmp/git-sbom") for a cloned URL, and ("image", source) for an image |
| SourceInput.ExistingPathWins | main.go:83-85 | an existing path resolves to "dir:"+source even when it starts with "http" |
| SourceInput.ImageIsDefault | main.go:93-94 | a non-empty source that is neither an existing path nor an http(s) URL resolves to "image:"+source |
| SourceInput.RemoteInputIgnoresUrl | main.go:85-92 | any two cloned URLs resolve to the same input, "dir:/tmp/git-sbom" |
| OllamaStream.Content | main.go:308-317 | a line contributes at most one string; it contributes exactly when it is an object whose "message" is an object whose "content" is a string, and then that string |
| OllamaStream.Aggregate | main.go:319-327 | a read error gives an error whatever was collected; otherwise the collected text, or the placeholder when nothing was collected; a successful text is never empty |
| OllamaStream.ReadStream | main.go:303-327 | the line-by-line builder loop computes exactly the aggregate of the stream |
| OllamaStream.CollectedAppend | main.go:305-318 | the text of a concatenation of line sequences is the concatenation of their texts, so contributions stay in stream order |
| OllamaStream.SkippedLineChangesNothing | main.go:308-317 | a line that does not decode, or lacks a string message.content, can be removed anywhere without changing the text |
| OllamaStream.NothingCollectedGivesPlaceholder | main.go:323-326 | a stream in which no line carries content collects nothing and yields the placeholder |
| OllamaStream.SkipsBrokenLinesBetweenFragments | main.go:305-318 | "foo", an undecodable line, a status line without "message", then "bar" give "foobar" |
| OllamaStream.ReadErrorDiscardsContent | main.go:319-322 | a read error fails the request even when content was collected |
| Handlers.ScanPrompt | main.go:177-183 | the prompt starts with its fixed opening, names the package label right after it, continues with the fixed middle text, and ends with the scan output followed by a newline |
| Handlers.ScanPromptDeterminesParts | main.go:177-183 | for any of the four labels, equal prompts have equal labels and equal scan outputs, so the prompt carries both unaltered |
| Handlers.ScanSbom | main.go:149-213 | the 400 reply happens exactly when the SBOM does not exist; success happens exactly when grype and the model answer and extraction does not panic; the handler panics exactly when extraction of the answer panics; on success the raw and script fields are the model's answer, the label is the classification of the scan output, the commands are the extraction of the answer, and the markdown field is the commands re-wrapped, which extracts back to the commands |
| Handlers.OllamaRequest | main.go:273-286 | the model is "mistral"; the URL is the host (the default host when it is empty) followed by "/api/generate"; the prompt is the fixed opening "Act like a security expert and write a shell script to fix these vulnerabilities:" with two newlines, followed by the scan output and nothing else |
| Handlers.RemediationPromptDeterminesOutput | main.go:274-277 | two requests with the same prompt carry the same scan output, whatever their hosts |
| Handlers.Remediate | main.go:255-337 | never panics; the 400 reply happens exactly when the SBOM does not exist; success happens exactly when grype runs and the stream is read without error; the script is the in-order stream text or the placeholder, never empty |
| Handlers.PythonScanPrompt | main.go:167-183 | scan output containing "python" puts "Python package" into the prompt and into the reply's pkgType |

## Left out

- SBOM generation through syft and stereoscope, `saveSBOMToFile` and CycloneDX encoding (main.go:99-146, 240-253). These are calls into foreign libraries; resolution stops at the scheme-prefixed input.
- Running grype and git (`cloneGitRepo`, and the commands at main.go:158-164 and 265-271). These are external processes. Their results are parameters: `Exec` for grype and `Clone` for the clone.
- The Ollama client, the JSON encoding of the request payload, and the HTTP round trip (main.go:187-197, 278, 288-301). This is network I/O. Their outcomes are the parameters `LlmCall` and `Transport`.
- JSON decoding of stream lines. Each line arrives already decoded as `NotJson` or a `JVal`. Go's choice among duplicate keys is inside the decoder, so the model does not make it.
- `bufio.Scanner` token limits. A line that is too long shows up only as the read error the `Stream` carries.
- `writeToLogFile`, `logsHandler`, timestamps, `main` and the Fiber routing. These are file I/O, the clock and framework wiring. The log line "Detected package type" is written before classification and so always names "package"; logs are not modelled.
- Text.TrimSpace: removes ASCII white space only, because characters stand for bytes. Go's `TrimSpace` also removes Unicode white space such as U+00A0 and U+2028.
- Text.IndexOf: offsets count characters. Go counts bytes, so the two agree only on ASCII text.
- The browser code under static/ (script.js, assetLoader.js, performanceUtils.js, main.js, babel.config.js). It is DOM manipulation, timers, fetch polling and build configuration, with no service logic.

=== FILE: handlers.dfy ===
/** The decision logic of the two remediation handlers of main.go, `scanSBOM`
    and `remediateWithOllama`, with every call into the file system, grype and
    the model server taken as a parameter. Both handlers read the one SBOM
    file the service keeps, `sbom.cyclonedx.json`. */
module Handlers {
  import opened Text
  import opened Outcomes
  import ScriptBlock
  import PackageType
  import OllamaStream

  const ModelName := "mistral"
  const DefaultOllamaHost := "http://host.docker.internal:11434"
  const GeneratePath := "/api/generate"
  const SbomMissingMessage := "SBOM file not found. Please generate it first."
  const ScanGrypeErrorPrefix := "Error running Grype: "
  const RemediationGrypeErrorPrefix := "Error running Grype for remediation: "
  const StreamErrorMessage := "Error reading Ollama response stream"
  const ScanDoneMessage := "Grype scan and remediation completed successfully"
  const RemediationDoneMessage := "Remediation script generated successfully"

  const ScanPromptHead := "You are a DevSecOps expert. Given the following SBOM scan output, write a clean script that upgrades each vulnerable "
  const ScanPromptMiddle := " to its fixed version.\n\nOnly output the script in a code block.\n\nSBOM Scan:\n"
  const RemediationPromptHead := "Act like a security expert and write a shell script to fix these vulnerabilities:\n\n"

  /** Result of the single `llm.Call` of `scanSBOM`; a failure to create the
      client is reported the same way. */
  datatype LlmCall = Answered(text: string) | LlmFailed(reason: string)

  /** The POST `remediateWithOllama` sends to the model server. */
  datatype Request = Request(url: string, model: string, prompt: string)

  /** Result of sending the request: the streamed body, or the error from
      building or sending it. */
  datatype Transport = Streamed(stream: OllamaStream.Stream) | RequestFailed(reason: string)

  /** The prompt of `scanSBOM` (main.go lines 177-183): it names the package
      type and carries the scan output verbatim. */
  function ScanPrompt(pkgType: string, scanOutput: string): (prompt: string)
    ensures |prompt| == |ScanPromptHead| + |pkgType| + |ScanPromptMiddle| + |scanOutput| + 1
    ensures prompt[..|ScanPromptHead|] == ScanPromptHead
    ensures OccursAt(prompt, pkgType, |ScanPromptHead|)
    ensures OccursAt(prompt, ScanPromptMiddle, |ScanPromptHead| + |pkgType|)
    ensures OccursAt(prompt, scanOutput, |prompt| - |scanOutput| - 1)
    ensures prompt[|prompt| - 1] == '\n'
  {
    var prompt := ScanPromptHead + pkgType + ScanPromptMiddle + scanOutput + "\n";
    assert prompt[|ScanPromptHead|..|ScanPromptHead| + |pkgType|] == pkgType;
    assert prompt[|ScanPromptHead| + |pkgType|..|ScanPromptHead| + |pkgType| + |ScanPromptMiddle|] == ScanPromptMiddle;
    assert prompt[|prompt| - |scanOutput| - 1..|prompt| - 1] == scanOutput;
    prompt
  }

  /** The prompt determines what was put into it: two prompts for labels the
      service can report are equal only when they name the same label and
      carry the same scan output. */
  lemma ScanPromptDeterminesParts(l1: string, o1: string, l2: string, o2: string)
    requires l1 in PackageType.Labels && l2 in PackageType.Labels
    requires ScanPrompt(l1, o1) == ScanPrompt(l2, o2)
    ensures l1 == l2 && o1 == o2
  {
    var prompt := ScanPrompt(l1, o1);
    assert prompt[|ScanPromptHead|] == l1[0] == l2[0];
    assert l1 == l2;
    assert o1 == prompt[|prompt| - |o1| - 1..|prompt| - 1] == o2;
  }

  /** `scanSBOM`, main.go lines 149-213. A missing SBOM is a client error;
      other `os.Stat` errors carry on. A grype or model failure is a server
      error. Otherwise the reply carries the scan, the model's answer, the
      script extracted from it and that script re-wrapped as markdown; the
      extraction can panic. */
  function ScanSbom(sbom: Stat, grype: Exec, llm: string -> LlmCall): (r: Reply)
    ensures r.Json? ==> r.status in {200, 400, 500}
    ensures r.Json? && r.status == 400 <==> sbom == NotExist
    ensures r.Json? && r.status == 200 <==>
      sbom != NotExist && grype.Exited?
      && llm(ScanPrompt(PackageType.Classify(grype.output), grype.output)).Answered?
      && ScriptBlock.Extract(llm(ScanPrompt(PackageType.Classify(grype.output), grype.output)).text).Returned?
    ensures r.Json? ==> (r.status == 200 <==> r.body.ScanReport?)
    ensures r.Json? && r.body.ScanReport? ==>
      && r.body.scanResult == grype.output
      && r.body.pkgType == PackageType.Classify(r.body.scanResult)
      && r.body.pkgType in PackageType.Labels
      && ScriptBlock.Extract(r.body.remediationScript) == ScriptBlock.Returned(r.body.remediationCommands)
      && ScriptBlock.Extract(r.body.markdownResponse) == ScriptBlock.Returned(r.body.remediationCommands)
      && r.body.ollamaRawResponse == r.body.remediationScript
      && r.body.ollamaModel == ModelName
    ensures r.Json? && r.body.ScanReport? ==>
      var answer := llm(ScanPrompt(PackageType.Classify(grype.output), grype.output));
      && answer.Answered?
      && r.body.remediationScript == answer.text
      && r.body.remediationCommands == ScriptBlock.Extract(answer.text).script
      && r.body.markdownResponse == ScriptBlock.Markdown(r.body.remediationCommands)
    ensures r.Panicked? <==>
      sbom != NotExist && grype.Exited?
      && llm(ScanPrompt(PackageType.Classify(grype.output), grype.output)).Answered?
      && ScriptBlock.Extract(llm(ScanPrompt(PackageType.Classify(grype.output), grype.output)).text).Panicked?
  {
    if sbom == NotExist then ErrorReply(400, SbomMissingMessage)
    else match grype
      case ExecFailed(reason) => ErrorReply(500, ScanGrypeErrorPrefix + reason)
      case Exited(output) =>
        var pkgType := PackageType.Classify(output);
        match llm(ScanPrompt(pkgType, output))
        case LlmFailed(reason) => ErrorReply(500, reason)
        case Answered(response) =>
          var extracted := ScriptBlock.Extract(response);
          if extracted.Panicked? then Panicked
          else
            var commands := extracted.script;
            ScriptBlock.RewrapIsStable(response);
            Json(200, ScanReport(ScanDoneMessage, output, response, commands, pkgType,
                                 ScriptBlock.Markdown(commands), ModelName, response))
  }

  /** The request of `remediateWithOllama` (main.go lines 273-286): model
      "mistral", a prompt that ends with the scan output, sent to
      `$OLLAMA_HOST/api/generate` with a fixed default host. */
  function OllamaRequest(ollamaHost: string, scanOutput: string): (req: Request)
    ensures req.model == ModelName
    ensures |req.prompt| == |RemediationPromptHead| + |scanOutput|
    ensures req.prompt[..|RemediationPromptHead|] == RemediationPromptHead
    ensures ollamaHost != "" ==> req.url == ollamaHost + GeneratePath
    ensures ollamaHost == "" ==> req.url == DefaultOllamaHost + GeneratePath
    ensures OccursAt(req.prompt, scanOutput, |req.prompt| - |scanOutput|)
  {
    var host := if ollamaHost == "" then DefaultOllamaHost else ollamaHost;
    var prompt := RemediationPromptHead + scanOutput;
    assert prompt[..|RemediationPromptHead|] == RemediationPromptHead;
    assert prompt[|prompt| - |scanOutput|..] == scanOutput;
    Request(host + GeneratePath, ModelName, prompt)
  }

  /** The request's prompt determines the scan output sent, whatever the
      hosts. */
  lemma RemediationPromptDeterminesOutput(h1: string, o1: string, h2: string, o2: string)
    requires OllamaRequest(h1, o1).prompt == OllamaRequest(h2, o2).prompt
    ensures o1 == o2
  {
    var p := OllamaRequest(h1, o1).prompt;
    assert o1 == p[|RemediationPromptHead|..] == o2;
  }

  /** `remediateWithOllama`, main.go lines 255-337. It never panics. A
      successful reply always carries a non-empty script: the stream's text
      in order, or the placeholder when the stream carried none. */
  function Remediate(sbom: Stat, grype: Exec, ollamaHost: string, ollama: Request -> Transport): (r: Reply)
    ensures r.Json? && r.status in {200, 400, 500}
    ensures r.status == 400 <==> sbom == NotExist
    ensures r.status == 200 <==>
      sbom != NotExist && grype.Exited?
      && ollama(OllamaRequest(ollamaHost, grype.output)).Streamed?
      && !ollama(OllamaRequest(ollamaHost, grype.output)).stream.readFailed
    ensures r.status == 200 <==> r.body.RemediationReport?
    ensures r.body.RemediationReport? ==>
      && r.body.remediationScript != ""
      && r.body.ollamaRawResponse == r.body.remediationScript
      && r.body.ollamaModel == ModelName
    ensures r.body.RemediationReport? ==>
      var lines := ollama(OllamaRequest(ollamaHost, grype.output)).stream.lines;
      r.body.remediationScript == (if OllamaStream.Collected(lines) == "" then OllamaStream.Placeholder
                                   else OllamaStream.Collected(lines))
  {
    if sbom == NotExist then ErrorReply(400, SbomMissingMessage)
    else match grype
      case ExecFailed(reason) => ErrorReply(500, RemediationGrypeErrorPrefix + reason)
      case Exited(output) =>
        match ollama(OllamaRequest(ollamaHost, output))
        case RequestFailed(reason) => ErrorReply(500, reason)
        case Streamed(stream) =>
          match OllamaStream.Aggregate(stream)
          case ReadFailed => ErrorReply(500, StreamErrorMessage)
          case Aggregated(text) =>
            Json(200, RemediationReport(RemediationDoneMessage, text, ModelName, text))
  }

  /** Scan text that names Python gets the Python label in the reply, and
      that label reaches the model's prompt. */
  lemma PythonScanPrompt(sbom: Stat, grype: Exec, llm: string -> LlmCall)
    requires grype.Exited? && Contains(grype.output, "python")
    ensures OccursAt(ScanPrompt(PackageType.Classify(grype.output), grype.output),
                     PackageType.PythonLabel, |ScanPromptHead|)
    ensures ScanSbom(sbom, grype, llm).Json? && ScanSbom(sbom, grype, llm).status == 200 ==>
      ScanSbom(sbom, grype, llm).body.pkgType == PackageType.PythonLabel
  {
  }
}

=== FILE: ollama_stream.dfy ===
/** How `remediateWithOllama` (main.go) reads the model server's streamed
    reply: one JSON document per line. Each line is decoded into a generic
    map. It contributes text only when its "message" member is an object whose
    "content" member is a string. Lines that do not decode are skipped. A
    read error ends the request with an error. An empty result is replaced by
    a fixed placeholder.

    JSON decoding itself is outside the model: each line arrives already
    classified as `NotJson` or as a decoded value. */
module OllamaStream {

  /** A decoded JSON value, as far as the handler looks into it. Numbers,
      booleans, null and arrays are all `JOther`. */
  datatype JVal = JString(str: string) | JObject(members: map<string, JVal>) | JOther

  /** One line of the stream, after `json.Unmarshal`. */
  datatype Line = NotJson | Json(value: JVal)

  /** The lines the scanner delivered, and whether it then stopped on a read
      error (`scanner.Err() != nil`) rather than at end of stream. */
  datatype Stream = Stream(lines: seq<Line>, readFailed: bool)

  /** What the handler gets from the stream: the remediation text, or the
      read error. */
  datatype Aggregation = Aggregated(text: string) | ReadFailed

  const Placeholder := "No remediation script generated. Please verify the prompt or model."

  /** The text a line contributes: `message.content`, when the line decodes to
      an object whose "message" is an object whose "content" is a string.
      A line that is valid JSON but not an object contributes nothing either:
      decoding it into Go's `map[string]interface{}` fails, or, for `null`,
      leaves a nil map in which "message" is absent. */
  function Content(line: Line): (parts: seq<string>)
    ensures |parts| <= 1
    ensures parts != [] ==> line.Json? && line.value.JObject? && "message" in line.value.members
    ensures parts != [] ==> var message := line.value.members["message"];
      message.JObject? && "content" in message.members
      && message.members["content"] == JString(parts[0])
    ensures (line.Json? && line.value.JObject? && "message" in line.value.members
             && line.value.members["message"].JObject?
             && "content" in line.value.members["message"].members
             && line.value.members["message"].members["content"].JString?) ==> parts != []
  {
    match line
    case Json(JObject(top)) =>
      if "message" in top && top["message"].JObject? && "content" in top["message"].members
         && top["message"].members["content"].JString?
      then [top["message"].members["content"].str]
      else []
    case _ => []
  }

  /** The contributed strings of all lines, in stream order. */
  function Contents(lines: seq<Line>): (parts: seq<string>)
    ensures |parts| <= |lines|
  {
    if lines == [] then [] else Content(lines[0]) + Contents(lines[1..])
  }

  /** The strings glued together, first to last. */
  function Concat(parts: seq<string>): string {
    if parts == [] then "" else parts[0] + Concat(parts[1..])
  }

  lemma {:induction false} ContentsAppend(a: seq<Line>, b: seq<Line>)
    ensures Contents(a + b) == Contents(a) + Contents(b)
  {
    if a != [] {
      assert (a + b)[1..] == a[1..] + b;
      ContentsAppend(a[1..], b);
    } else {
      assert a + b == b;
    }
  }

  lemma {:induction false} ConcatAppend(x: seq<string>, y: seq<string>)
    ensures Concat(x + y) == Concat(x) + Concat(y)
  {
    if x != [] {
      assert (x + y)[1..] == x[1..] + y;
      ConcatAppend(x[1..], y);
    } else {
      assert x + y == y;
    }
  }

  /** The text the stream yields when it ends without a read error. */
  function Collected(lines: seq<Line>): string {
    Concat(Contents(lines))
  }

  /** Appending lines appends their text: the stream is read in order. */
  lemma CollectedAppend(a: seq<Line>, b: seq<Line>)
    ensures Collected(a + b) == Collected(a) + Collected(b)
  {
    ContentsAppend(a, b);
    ConcatAppend(Contents(a), Contents(b));
  }

  /** A line that contributes nothing can be dropped, wherever it sits. */
  lemma SkippedLineChangesNothing(a: seq<Line>, line: Line, b: seq<Line>)
    requires Content(line) == []
    ensures Collected(a + [line] + b) == Collected(a + b)
  {
    CollectedAppend(a + [line], b);
    CollectedAppend(a, [line]);
    CollectedAppend(a, b);
    assert Contents([line]) == [] by { assert [line][1..] == []; }
  }

  /** The result of the stream, main.go lines 303-327: the read error wins;
      otherwise the collected text, or the placeholder when nothing was
      collected. A successful result is never empty. */
  function Aggregate(stream: Stream): (r: Aggregation)
    ensures r == ReadFailed <==> stream.readFailed
    ensures r.Aggregated? ==> r.text != ""
    ensures r.Aggregated? && Collected(stream.lines) != "" ==> r.text == Collected(stream.lines)
    ensures r.Aggregated? && Collected(stream.lines) == "" ==> r.text == Placeholder
  {
    if stream.readFailed then ReadFailed
    else if Collected(stream.lines) == "" then Aggregated(Placeholder)
    else Aggregated(Collected(stream.lines))
  }

  /** The handler's loop: a builder that appends each line's content as the
      line arrives, followed by the error check and the placeholder. */
  method ReadStream(stream: Stream) returns (r: Aggregation)
    ensures r == Aggregate(stream)
  {
    var builder := "";
    var i := 0;
    while i < |stream.lines|
      invariant 0 <= i <= |stream.lines|
      invariant builder == Collected(stream.lines[..i])
    {
      var line := stream.lines[i];
      match line {
        case Json(JObject(top)) =>
          if "message" in top && top["message"].JObject? && "content" in top["message"].members
             && top["message"].members["content"].JString? {
            builder := builder + top["message"].members["content"].str;
          }
        case _ =>
      }
      CollectedAppend(stream.lines[..i], [line]);
      CollectedSingle(line);
      assert stream.lines[..i + 1] == stream.lines[..i] + [line];
      i := i + 1;
    }
    assert stream.lines[..i] == stream.lines;
    if stream.readFailed {
      return ReadFailed;
    }
    if |builder| == 0 {
      builder := builder + Placeholder;
    }
    r := Aggregated(builder);
  }

  /** A line of the chat format: {"message": {"content": text}}. */
  function ChatLine(text: string): Line {
    Json(JObject(map["message" := JObject(map["content" := JString(text)])]))
  }

  /** A stream in which no line carries a string `message.content` yields
      the placeholder. */
  lemma {:induction false} NothingCollectedGivesPlaceholder(lines: seq<Line>)
    requires forall i :: 0 <= i < |lines| ==> Content(lines[i]) == []
    ensures Collected(lines) == ""
    ensures Aggregate(Stream(lines, false)) == Aggregated(Placeholder)
    decreases |lines|
  {
    if lines != [] {
      NothingCollectedGivesPlaceholder(lines[1..]);
      assert Content(lines[0]) == [];
      assert Contents(lines) == Contents(lines[1..]);
    }
  }

  /** A single line's text is its own content. */
  lemma CollectedSingle(line: Line)
    ensures Collected([line]) == Concat(Content(line))
  {
    assert [line][1..] == [];
  }

  /** Chat lines contribute their text in order around lines that do not
      decode or lack the field: "foo", a broken line, a status line, "bar"
      give "foobar". */
  lemma SkipsBrokenLinesBetweenFragments(status: map<string, JVal>)
    requires "message" !in status
    ensures Aggregate(Stream([ChatLine("foo"), NotJson, Json(JObject(status)), ChatLine("bar")], false))
      == Aggregated("foobar")
  {
    var foo, broken, other, bar := ChatLine("foo"), NotJson, Json(JObject(status)), ChatLine("bar");
    assert [foo, broken, other, bar] == [foo] + [broken] + [other] + [bar];
    CollectedAppend([foo] + [broken] + [other], [bar]);
    CollectedAppend([foo] + [broken], [other]);
    CollectedAppend([foo], [broken]);
    CollectedSingle(foo);
    CollectedSingle(broken);
    CollectedSingle(other);
    CollectedSingle(bar);
    assert Concat(["foo"]) == "foo";
    assert Concat(["bar"]) == "bar";
  }

  /** A read error makes the request fail even after content arrived. */
  lemma ReadErrorDiscardsContent(lines: seq<Line>)
    requires Collected(lines) != ""
    ensures Aggregate(Stream(lines, true)) == ReadFailed
  {
  }
}

=== FILE: outcomes.dfy ===
/** What the HTTP handlers of main.go get back from the operating system, from
    child processes, and what they send to the client. These calls are outside
    the model; each handler takes their results as parameters. */
module Outcomes {

  /** Result of `os.Stat` on a path. `StatFailed` is any error other than
      "does not exist", for instance a permission error. */
  datatype Stat = Exists | NotExist | StatFailed

  /** Result of running an external command with `CombinedOutput`. */
  datatype Exec = Exited(output: string) | ExecFailed(reason: string)

  /** The JSON objects the handlers send; each field is named after its key. */
  datatype Body =
    | Error(error: string)
    | ScanReport(message: string, scanResult: string, remediationScript: string,
                 remediationCommands: string, pkgType: string, markdownResponse: string,
                 ollamaModel: string, ollamaRawResponse: string)
    | RemediationReport(message: string, remediationScript: string, ollamaModel: string,
                        ollamaRawResponse: string)

  /** What a handler does: send a JSON object with a status code, or panic. */
  datatype Reply = Json(status: nat, body: Body) | Panicked

  /** The `{"error": message}` replies the handlers send on failure. */
  function ErrorReply(status: nat, message: string): Reply {
    Json(status, Error(message))
  }
}

=== FILE: package_type.dfy ===
/** The package-type label `scanSBOM` (main.go) derives from grype's output
    before it asks the language model for an upgrade script. The test is a
    case-sensitive substring search over the raw scan text; the first keyword
    group that matches wins. */
module PackageType {
  import opened Text

  const PythonLabel := "Python package"
  const NodeLabel := "Node.js package"
  const JavaLabel := "Java package"
  const DefaultLabel := "package"

  /** The four labels the service can report. */
  const Labels: set<string> := {PythonLabel, NodeLabel, JavaLabel, DefaultLabel}

  /** The label for a scan output, as computed in main.go lines 167-175. */
  function Classify(scan: string): (pkgType: string)
    ensures pkgType in Labels
    ensures pkgType == PythonLabel <==> Contains(scan, "python")
    ensures pkgType == NodeLabel <==>
      !Contains(scan, "python") && (Contains(scan, "nodejs") || Contains(scan, "npm"))
    ensures pkgType == JavaLabel <==>
      !Contains(scan, "python") && !Contains(scan, "nodejs") && !Contains(scan, "npm")
      && (Contains(scan, "java") || Contains(scan, "maven"))
    ensures pkgType == DefaultLabel <==>
      forall w :: w in Keywords() ==> !Contains(scan, w)
  {
    if Contains(scan, "python") then PythonLabel
    else if Contains(scan, "nodejs") || Contains(scan, "npm") then NodeLabel
    else if Contains(scan, "java") || Contains(scan, "maven") then JavaLabel
    else DefaultLabel
  }

  /** One keyword group: the label it yields and the words that select it. */
  datatype Rule = Rule(pkgType: string, keywords: seq<string>)

  /** The keyword groups in the order the source tests them. */
  function Rules(): seq<Rule> {
    [Rule(PythonLabel, ["python"]), Rule(NodeLabel, ["nodejs", "npm"]), Rule(JavaLabel, ["java", "maven"])]
  }

  /** Every keyword of every group. */
  function Keywords(): set<string> {
    {"python", "nodejs", "npm", "java", "maven"}
  }

  /** A rule fires when the text contains any of its keywords. */
  predicate Fires(rule: Rule, scan: string) {
    exists i :: 0 <= i < |rule.keywords| && Contains(scan, rule.keywords[i])
  }

  /** Generic first-match classification over an ordered rule list. */
  function FirstMatch(rules: seq<Rule>, scan: string, fallback: string): (pkgType: string)
    ensures pkgType == fallback || exists i :: 0 <= i < |rules| && pkgType == rules[i].pkgType && Fires(rules[i], scan)
    ensures (forall i :: 0 <= i < |rules| ==> !Fires(rules[i], scan)) ==> pkgType == fallback
  {
    if rules == [] then fallback
    else if Fires(rules[0], scan) then rules[0].pkgType
    else FirstMatch(rules[1..], scan, fallback)
  }

  /** The first-match reading: the rules of `rules[..k]` do not fire and rule
      `k` does, so the label is rule `k`'s. */
  lemma {:induction false} FirstMatchPicksFirstFiring(rules: seq<Rule>, scan: string, fallback: string, k: nat)
    requires k < |rules|
    requires forall i :: 0 <= i < k ==> !Fires(rules[i], scan)
    requires Fires(rules[k], scan)
    ensures FirstMatch(rules, scan, fallback) == rules[k].pkgType
    decreases k
  {
    if k > 0 {
      assert !Fires(rules[0], scan);
      FirstMatchPicksFirstFiring(rules[1..], scan, fallback, k - 1);
    }
  }

  /** The source's if/else chain is first-match over the ordered groups
      python, then nodejs/npm, then java/maven, with "package" as fallback. */
  lemma ClassifyIsFirstMatch(scan: string)
    ensures Classify(scan) == FirstMatch(Rules(), scan, DefaultLabel)
  {
    var rules := Rules();
    if Contains(scan, "python") {
      assert Fires(rules[0], scan) by { assert rules[0].keywords[0] == "python"; }
      FirstMatchPicksFirstFiring(rules, scan, DefaultLabel, 0);
    } else if Contains(scan, "nodejs") || Contains(scan, "npm") {
      assert !Fires(rules[0], scan);
      assert Fires(rules[1], scan) by {
        if Contains(scan, "nodejs") { assert rules[1].keywords[0] == "nodejs"; }
        else { assert rules[1].keywords[1] == "npm"; }
      }
      FirstMatchPicksFirstFiring(rules, scan, DefaultLabel, 1);
    } else if Contains(scan, "java") || Contains(scan, "maven") {
      assert !Fires(rules[0], scan);
      assert !Fires(rules[1], scan);
      assert Fires(rules[2], scan) by {
        if Contains(scan, "java") { assert rules[2].keywords[0] == "java"; }
        else { assert rules[2].keywords[1] == "maven"; }
      }
      FirstMatchPicksFirstFiring(rules, scan, DefaultLabel, 2);
    } else {
      assert !Fires(rules[0], scan);
      assert !Fires(rules[1], scan);
      assert !Fires(rules[2], scan);
    }
  }

  /** Python outranks Node.js: a text mentioning both "npm" and "python" is
      labelled a Python package. */
  lemma PythonOutranksNode(scan: string)
    requires Contains(scan, "npm") && Contains(scan, "python")
    ensures Classify(scan) == PythonLabel
  {
  }

  /** A word is only found where each of its letters is present. */
  lemma WordNeedsItsLetters(scan: string, w: string, n: nat)
    requires n < |w| && w[n] !in scan
    ensures !Contains(scan, w)
  {
    if Contains(scan, w) {
      var k :| OccursAt(scan, w, k);
      OccurrenceCharacters(scan, w, k, n);
    }
  }

  /** The search is case-sensitive: a text with no lower-case 'p', 'd', 'j'
      or 'm', such as "Python NPM Java Maven", gets the default label even
      though it names every ecosystem. */
  lemma CaseSensitive(scan: string)
    requires 'p' !in scan && 'd' !in scan && 'j' !in scan && 'm' !in scan
    ensures Classify(scan) == DefaultLabel
  {
    WordNeedsItsLetters(scan, "python", 0);
    WordNeedsItsLetters(scan, "nodejs", 2);
    WordNeedsItsLetters(scan, "npm", 1);
    WordNeedsItsLetters(scan, "java", 0);
    WordNeedsItsLetters(scan, "maven", 0);
  }
}

=== FILE: script_block.dfy ===
/** `extractScriptBlock` (main.go): pulls the first fenced code block out of
    the language model's free-form answer.

    The function works with fixed offsets rather than parsing the fence. It
    looks for the first "```bash" and, only if there is none, for the first
    "```". It then moves 3 characters past that opener, finds the next "```",
    and skips 5 more characters ("bash" plus one separator) before slicing up
    to the closer. For a bare "```" fence those 5 characters are the first
    characters of the script. When the closer is nearer than 5 characters, the
    Go slice `rest[5:end]` has its low bound above its high bound and panics;
    the model returns `Panicked` for that. */
module ScriptBlock {
  import opened Text

  const Fence := "```"
  const BashFence := "```bash"

  /** What a call of `extractScriptBlock` does: return a string or panic. */
  datatype Extraction = Returned(script: string) | Panicked

  /** `p` is the opener the source picks: the first "```bash" if there is one,
      otherwise the first "```". */
  ghost predicate OpensAt(text: string, p: int) {
    FirstAt(text, BashFence, p) || (Free(text, BashFence) && FirstAt(text, Fence, p))
  }

  /** `c` is the first "```" that starts at least 3 characters after the opener `p`. */
  ghost predicate ClosesAt(text: string, p: int, c: int) {
    p + 3 <= c && OccursAt(text, Fence, c) && forall q :: p + 3 <= q < c ==> !OccursAt(text, Fence, q)
  }

  /** Every "```bash" is also a "```". */
  lemma BashFenceIsFence(text: string, k: int)
    requires OccursAt(text, BashFence, k)
    ensures OccursAt(text, Fence, k)
  {
    PrefixOccurs(text, BashFence, 3, k);
    assert BashFence[..3] == Fence;
  }

  /** The opener search of main.go lines 30-33: -1 exactly when the text
      holds no fence, otherwise the opener the source picks. */
  function OpenerIndex(text: string): (p: int)
    ensures p == -1 <==> Free(text, Fence)
    ensures p != -1 ==> OpensAt(text, p) && p + 3 <= |text|
  {
    var bash := IndexOf(text, BashFence);
    if bash != -1 then
      BashFenceIsFence(text, bash);
      bash
    else
      IndexOf(text, Fence)
  }

  /** At most one position is the opener. */
  lemma OpenerUnique(text: string, p: int, p': int)
    requires OpensAt(text, p) && OpensAt(text, p')
    ensures p == p'
  {
    if FirstAt(text, BashFence, p) {
      assert FirstAt(text, BashFence, p') by { assert OccursAt(text, BashFence, p); }
      IndexOfFirst(text, BashFence, p);
      IndexOfFirst(text, BashFence, p');
    } else {
      assert FirstAt(text, Fence, p') by { assert !FirstAt(text, BashFence, p'); }
      IndexOfFirst(text, Fence, p);
      IndexOfFirst(text, Fence, p');
    }
  }

  /** Go's `extractScriptBlock`. A returned script is trimmed and never
      contains a fence of its own. */
  function Extract(text: string): (r: Extraction)
    ensures r.Returned? ==> IsTrimmed(r.script) && Free(r.script, Fence)
  {
    var start := OpenerIndex(text);
    if start == -1 then Returned("")
    else
      var rest := text[start + 3..];
      var end := IndexOf(rest, Fence);
      if end == -1 then Returned("")
      else if end < 5 then Panicked
      else
        FreeSlice(rest, Fence, 5, end);
        TrimSpaceKeepsFree(rest[5..end], Fence);
        Returned(TrimSpace(rest[5..end]))
  }

  /** Closer search inside `rest = text[p + 3..]`, expressed on `text`. */
  lemma CloserInRest(text: string, p: int, c: int)
    requires 0 <= p && p + 3 <= |text|
    requires ClosesAt(text, p, c)
    ensures IndexOf(text[p + 3..], Fence) == c - (p + 3)
  {
    var rest := text[p + 3..];
    OccursInSuffix(text, Fence, p + 3, c - (p + 3));
    forall q | 0 <= q < c - (p + 3)
      ensures !OccursAt(rest, Fence, q)
    {
      OccursInSuffix(text, Fence, p + 3, q);
    }
    IndexOfFirst(rest, Fence, c - (p + 3));
  }

  /** No "```" after the opener in `text` means none in `rest`. */
  lemma NoCloserInRest(text: string, p: int)
    requires 0 <= p && p + 3 <= |text|
    requires forall q :: p + 3 <= q ==> !OccursAt(text, Fence, q)
    ensures IndexOf(text[p + 3..], Fence) == -1
  {
    var rest := text[p + 3..];
    forall q | 0 <= q
      ensures !OccursAt(rest, Fence, q)
    {
      OccursInSuffix(text, Fence, p + 3, q);
    }
  }

  /** A text without any "```" yields the empty script. */
  lemma NoFenceYieldsEmpty(text: string)
    requires Free(text, Fence)
    ensures Extract(text) == Returned("")
  {
  }

  /** An opener without a closing "```" after it yields the empty script. */
  lemma UnterminatedFenceYieldsEmpty(text: string, p: int)
    requires OpensAt(text, p)
    requires forall q :: p + 3 <= q ==> !OccursAt(text, Fence, q)
    ensures Extract(text) == Returned("")
  {
    var start := OpenerIndex(text);
    assert start != -1 by { assert OccursAt(text, Fence, p) by {
      if FirstAt(text, BashFence, p) { BashFenceIsFence(text, p); }
    } }
    OpenerUnique(text, start, p);
    NoCloserInRest(text, p);
  }

  /** With opener `p` and closer `c`, the script is the trimmed text from 8
      characters past the opener up to the closer; a closer that leaves fewer
      than 5 characters after the opener's first 3 makes the source panic. */
  lemma ClosedFenceYields(text: string, p: int, c: int)
    requires OpensAt(text, p)
    requires ClosesAt(text, p, c)
    ensures c >= p + 8 ==> Extract(text) == Returned(TrimSpace(text[p + 8..c]))
    ensures c < p + 8 ==> Extract(text) == Panicked
  {
    var start := OpenerIndex(text);
    assert start != -1 by { assert OccursAt(text, Fence, c); }
    OpenerUnique(text, start, p);
    var rest := text[p + 3..];
    CloserInRest(text, p, c);
    var end := IndexOf(rest, Fence);
    assert end == c - (p + 3);
    if c >= p + 8 {
      assert rest[5..end] == text[p + 8..c];
      assert Extract(text) == Returned(TrimSpace(rest[5..end]));
    } else {
      assert Extract(text) == Panicked;
    }
  }

  /** When the text has an opener, its closer is the first "```" from 3
      characters past it, whenever any such fence exists. */
  lemma CloserOfOpener(text: string, p: int) returns (c: int)
    requires OpensAt(text, p) && p + 3 <= |text|
    requires IndexOf(text[p + 3..], Fence) != -1
    ensures c == p + 3 + IndexOf(text[p + 3..], Fence)
    ensures ClosesAt(text, p, c)
  {
    var rest := text[p + 3..];
    var end := IndexOf(rest, Fence);
    c := p + 3 + end;
    OccursInSuffix(text, Fence, p + 3, end);
    forall q | p + 3 <= q < c
      ensures !OccursAt(text, Fence, q)
    {
      OccursInSuffix(text, Fence, p + 3, q - (p + 3));
    }
  }

  /** A panic comes from an opener whose closer is too near. */
  lemma PanicHasNearCloser(text: string) returns (p: int, c: int)
    requires Extract(text) == Panicked
    ensures OpensAt(text, p) && ClosesAt(text, p, c) && c < p + 8
  {
    p := OpenerIndex(text);
    c := CloserOfOpener(text, p);
    ClosedFenceYields(text, p, c);
  }

  /** The source panics exactly when the opener's closer lies fewer than 8
      characters past the opener's start. */
  lemma PanicsExactlyWhenCloserTooNear(text: string)
    ensures Extract(text) == Panicked <==>
      exists p, c :: OpensAt(text, p) && ClosesAt(text, p, c) && c < p + 8
  {
    if Extract(text) == Panicked {
      var p, c := PanicHasNearCloser(text);
    }
    if exists p, c :: OpensAt(text, p) && ClosesAt(text, p, c) && c < p + 8 {
      var p, c :| OpensAt(text, p) && ClosesAt(text, p, c) && c < p + 8;
      ClosedFenceYields(text, p, c);
    }
  }

  /** A "```bash" fence wins over a bare "```" that appears earlier. */
  lemma BashFencePreferred(text: string, q: int, p: int, c: int)
    requires OccursAt(text, Fence, q) && q < p
    requires FirstAt(text, BashFence, p)
    requires ClosesAt(text, p, c) && c >= p + 8
    ensures Extract(text) == Returned(TrimSpace(text[p + 8..c]))
  {
    ClosedFenceYields(text, p, c);
  }

  /** `ClosedFenceYields` with the slice between the fences named. */
  lemma ExtractsBetween(text: string, p: int, c: int, inner: string)
    requires OpensAt(text, p) && ClosesAt(text, p, c) && c >= p + 8
    requires text[p + 8..c] == inner
    ensures Extract(text) == Returned(TrimSpace(inner))
  {
    ClosedFenceYields(text, p, c);
  }

  /** The markdown wrapper the scan handler puts around an extracted script
      (main.go line 209). */
  function Markdown(script: string): (md: string)
    ensures |md| == |script| + 12
    ensures OccursAt(md, BashFence, 0) && md[7] == '\n'
    ensures OccursAt(md, script, 8)
    ensures md[|script| + 8] == '\n' && OccursAt(md, Fence, |script| + 9)
  {
    var md := BashFence + "\n" + script + "\n" + Fence;
    assert md[..7] == BashFence;
    assert md[8..8 + |script|] == script;
    assert md[|script| + 9..] == Fence;
    md
  }

  /** Inside the wrapper "```bash\n" + s + "\n```", no "```" starts between
      the opener's first 3 characters and the final fence. */
  lemma WrapperHasNoEarlyFence(s: string, q: int)
    requires Free(s, Fence)
    requires 3 <= q < |s| + 9
    ensures !OccursAt(BashFence + "\n" + s + "\n" + Fence, Fence, q)
  {
    var text := BashFence + "\n" + s + "\n" + Fence;
    assert |text| == |s| + 12;
    if q < 8 {
      assert text[q] != '`' by { assert text[..8] == BashFence + "\n"; }
    } else if q + 3 <= |s| + 8 {
      assert text[q..q + 3] == s[q - 8..q - 5];
      assert !OccursAt(s, Fence, q - 8);
    } else {
      assert text[|s| + 8] == '\n';
      if OccursAt(text, Fence, q) {
        OccurrenceCharacters(text, Fence, q, |s| + 8 - q);
      }
    }
  }

  /** The wrapper opens at its start and closes at its final fence. */
  lemma WrapperFences(s: string)
    requires Free(s, Fence)
    ensures OpensAt(BashFence + "\n" + s + "\n" + Fence, 0)
    ensures ClosesAt(BashFence + "\n" + s + "\n" + Fence, 0, |s| + 9)
  {
    var text := BashFence + "\n" + s + "\n" + Fence;
    var c := |s| + 9;
    assert OccursAt(text, BashFence, 0) by { assert text[0..7] == BashFence; }
    assert OccursAt(text, Fence, c) by { assert text[c..c + 3] == Fence; }
    forall q | 3 <= q < c
      ensures !OccursAt(text, Fence, q)
    {
      WrapperHasNoEarlyFence(s, q);
    }
  }

  /** The scan handler re-wraps the extracted script as "```bash\n" + s +
      "\n```" (main.go line 209). Extracting from that wrapper gives back the
      trimmed script, provided the script holds no fence of its own. */
  lemma {:induction false} RewrapRoundTrip(s: string)
    requires Free(s, Fence)
    ensures Extract(Markdown(s)) == Returned(TrimSpace(s))
  {
    var text := Markdown(s);
    WrapperFences(s);
    assert text[8..|s| + 9] == s + "\n";
    ExtractsBetween(text, 0, |s| + 9, s + "\n");
    TrimSpaceDropsTrailingSpace(s, '\n');
  }

  /** Extracting again from the wrapped script gives the same script back, so
      the `markdownResponse` field carries exactly `remediationCommands`. */
  lemma RewrapIsStable(text: string)
    requires Extract(text).Returned?
    ensures Extract(Markdown(Extract(text).script)) == Extract(text)
  {
    var script := Extract(text).script;
    RewrapRoundTrip(script);
    TrimSpaceIdempotent(script);
  }

  /** A bare block "```" + body + "```" + tail opens at 0 and closes right
      after the body when no "```" starts inside the body or runs from it
      into the closing fence, and the text has no "```bash". Backticks in
      the body, as in "echo `date`", are allowed. */
  lemma BareFenceBounds(body: string, tail: string)
    requires Free(body + "``", Fence)
    requires Free(Fence + body + Fence + tail, BashFence)
    ensures OpensAt(Fence + body + Fence + tail, 0)
    ensures ClosesAt(Fence + body + Fence + tail, 0, 3 + |body|)
  {
    var text := Fence + body + Fence + tail;
    var inner := body + "``";
    var c := 3 + |body|;
    assert OccursAt(text, Fence, 0) by { assert text[0..3] == Fence; }
    assert OccursAt(text, Fence, c) by { assert text[c..c + 3] == Fence; }
    forall q | 3 <= q < c
      ensures !OccursAt(text, Fence, q)
    {
      assert text[q..q + 3] == inner[q - 3..q];
      assert !OccursAt(inner, Fence, q - 3);
    }
  }

  /** The bare-fence path: for a block "```" + body + "```" + tail with no
      "```bash" anywhere and no "```" inside the body or running from it into
      the closing fence, the 5-character skip drops the first five characters
      of the body (for "```\necho hi\n```" the newline and "echo", leaving
      "hi"), and a body shorter than five characters panics. */
  lemma BareFenceLosesFiveCharacters(body: string, tail: string)
    requires Free(body + "``", Fence)
    requires Free(Fence + body + Fence + tail, BashFence)
    ensures |body| >= 5 ==> Extract(Fence + body + Fence + tail) == Returned(TrimSpace(body[5..]))
    ensures |body| < 5 ==> Extract(Fence + body + Fence + tail) == Panicked
  {
    var text := Fence + body + Fence + tail;
    BareFenceBounds(body, tail);
    if |body| >= 5 {
      assert text[8..3 + |body|] == body[5..];
      ExtractsBetween(text, 0, 3 + |body|, body[5..]);
    } else {
      ClosedFenceYields(text, 0, 3 + |body|);
    }
  }
}

=== FILE: source_input.dfy ===
/** How `generateSBOM` (main.go) turns its `source` query parameter into the
    scheme-prefixed input it hands to the SBOM generator.

    The order of the tests is: an empty source is refused; a path `os.Stat`
    accepts is a directory; an http(s) URL is cloned into a fixed scratch
    directory, which then becomes the directory; everything else is a
    container image reference. Whether a path exists and whether the clone
    succeeds are parameters. */
module SourceInput {
  import opened Text
  import opened Outcomes

  const CloneDir := "/tmp/git-sbom"
  const NoSourceMessage := "Error: No valid source provided. Provide an image, directory path, or remote URL."
  const CloneFailurePrefix := "Failed to clone repository: "

  /** Result of `cloneGitRepo(url, "/tmp/git-sbom")`. */
  datatype Clone = Cloned | CloneFailed(reason: string)

  /** Either the input for the SBOM generator or the error reply. */
  datatype Resolution = Resolved(input: string) | Rejected(reply: Reply)

  predicate IsRemoteUrl(source: string) {
    HasPrefix(source, "http://") || HasPrefix(source, "https://")
  }

  /** main.go lines 76-95. `stat` answers `os.Stat` for a path, `clone`
      answers `cloneGitRepo` for a URL. */
  function Resolve(source: string, stat: string -> Stat, clone: string -> Clone): (r: Resolution)
    ensures r.Resolved? ==> HasPrefix(r.input, "dir:") || HasPrefix(r.input, "image:")
    ensures r.Rejected? ==> r.reply.Json? && r.reply.status in {400, 500} && r.reply.body.Error?
    ensures r.Rejected? && r.reply.status == 400 <==> source == ""
    ensures r.Rejected? && r.reply.status == 500 <==>
      source != "" && stat(source) != Exists && IsRemoteUrl(source) && clone(source).CloneFailed?
  {
    if source == "" then Rejected(ErrorReply(400, NoSourceMessage))
    else if stat(source) == Exists then Resolved("dir:" + source)
    else if IsRemoteUrl(source) then
      match clone(source)
      case Cloned => Resolved("dir:" + CloneDir)
      case CloneFailed(reason) => Rejected(ErrorReply(500, CloneFailurePrefix + reason))
    else Resolved("image:" + source)
  }

  /** The kinds of source the service distinguishes, as a tagged value. */
  datatype Locator = NoSource | LocalPath(path: string) | RemoteRepository(url: string) | ContainerImage(ref: string)

  /** Reference classification: what kind of source a string denotes, tested
      in the priority order local path, then URL, then image. */
  function Locate(source: string, stat: string -> Stat): (loc: Locator)
    ensures loc.NoSource? <==> source == ""
    ensures loc.LocalPath? <==> source != "" && stat(source) == Exists
    ensures loc.RemoteRepository? <==> source != "" && stat(source) != Exists && IsRemoteUrl(source)
    ensures loc.LocalPath? ==> loc.path == source
    ensures loc.RemoteRepository? ==> loc.url == source && IsRemoteUrl(source)
    ensures loc.ContainerImage? ==> loc.ref == source && !IsRemoteUrl(source)
  {
    if source == "" then NoSource
    else if stat(source) == Exists then LocalPath(source)
    else if IsRemoteUrl(source) then RemoteRepository(source)
    else ContainerImage(source)
  }

  /** The scheme-prefixed generator input for a locator; a remote repository
      is read from its clone directory, whatever its URL. */
  function Render(loc: Locator, clone: string -> Clone): Resolution {
    match loc
    case NoSource => Rejected(ErrorReply(400, NoSourceMessage))
    case LocalPath(path) => Resolved("dir:" + path)
    case RemoteRepository(url) =>
      if clone(url).Cloned? then Resolved("dir:" + CloneDir)
      else Rejected(ErrorReply(500, CloneFailurePrefix + clone(url).reason))
    case ContainerImage(ref) => Resolved("image:" + ref)
  }

  /** The handler's if/else chain is classification followed by rendering. */
  lemma ResolveIsLocateThenRender(source: string, stat: string -> Stat, clone: string -> Clone)
    ensures Resolve(source, stat, clone) == Render(Locate(source, stat), clone)
  {
  }

  /** The model's own decoder of the scheme prefix: splits an input into its
      scheme and the rest. */
  function SplitScheme(input: string): (r: (string, string))
    ensures r.0 in {"dir", "image", ""}
    ensures r.0 == "dir" ==> input == "dir:" + r.1
    ensures r.0 == "image" ==> input == "image:" + r.1
  {
    if HasPrefix(input, "dir:") then ("dir", input[4..])
    else if HasPrefix(input, "image:") then ("image", input[6..])
    else ("", input)
  }

  /** Reading the prefix back recovers the locator: a local path or an image
      gives back the source itself, a remote repository gives the clone
      directory. */
  lemma {:induction false} ResolvedInputRoundTrip(source: string, stat: string -> Stat, clone: string -> Clone)
    requires Resolve(source, stat, clone).Resolved?
    ensures Locate(source, stat).LocalPath? ==> SplitScheme(Resolve(source, stat, clone).input) == ("dir", source)
    ensures Locate(source, stat).RemoteRepository? ==> SplitScheme(Resolve(source, stat, clone).input) == ("dir", CloneDir)
    ensures Locate(source, stat).ContainerImage? ==> SplitScheme(Resolve(source, stat, clone).input) == ("image", source)
  {
    var input := Resolve(source, stat, clone).input;
    match Locate(source, stat)
    case LocalPath(_) =>
      assert HasPrefix(input, "dir:") by { assert input[..4] == "dir:"; }
      assert input[4..] == source;
    case RemoteRepository(_) =>
      assert HasPrefix(input, "dir:") by { assert input[..4] == "dir:"; }
      assert input[4..] == CloneDir;
    case ContainerImage(_) =>
      assert !HasPrefix(input, "dir:") by { assert input[0] == 'i'; }
      assert HasPrefix(input, "image:") by { assert input[..6] == "image:"; }
      assert input[6..] == source;
  }

  /** An existing path is a directory even when it looks like a URL. */
  lemma ExistingPathWins(source: string, stat: string -> Stat, clone: string -> Clone)
    requires source != "" && stat(source) == Exists
    ensures Resolve(source, stat, clone) == Resolved("dir:" + source)
  {
  }

  /** Any other non-empty source, neither an existing path nor an http(s)
      URL, is taken as a container image reference. */
  lemma ImageIsDefault(source: string, stat: string -> Stat, clone: string -> Clone)
    requires source != "" && stat(source) != Exists && !IsRemoteUrl(source)
    ensures Resolve(source, stat, clone) == Resolved("image:" + source)
  {
  }

  /** A cloned repository always yields the same input, independent of its URL. */
  lemma RemoteInputIgnoresUrl(u1: string, u2: string, stat: string -> Stat, clone: string -> Clone)
    requires IsRemoteUrl(u1) && IsRemoteUrl(u2)
    requires stat(u1) != Exists && stat(u2) != Exists
    requires clone(u1) == Cloned && clone(u2) == Cloned
    ensures Resolve(u1, stat, clone) == Resolve(u2, stat, clone) == Resolved("dir:" + CloneDir)
  {
    assert u1 != "" by { assert HasPrefix(u1, "http://") || HasPrefix(u1, "https://"); }
    assert u2 != "" by { assert HasPrefix(u2, "http://") || HasPrefix(u2, "https://"); }
  }
}

=== FILE: text.dfy ===
/** The slice of Go's `strings` package the service relies on: `Index`,
    `Contains`, `HasPrefix` and `TrimSpace`.

    Strings are sequences of characters, one character per byte, so the model
    is exact for ASCII text; byte offsets and character offsets coincide. */
module Text {

  /** The ASCII white-space bytes that Go's `strings.TrimSpace` removes. */
  predicate IsSpace(c: char) {
    c == ' ' || c == '\t' || c == '\n' || c == '\U{0B}' || c == '\U{0C}' || c == '\r'
  }

  /** `pat` sits in `s` starting at offset `i`. */
  predicate OccursAt(s: string, pat: string, i: int) {
    0 <= i && i + |pat| <= |s| && s[i..i + |pat|] == pat
  }

  /** `pat` occurs nowhere in `s`. */
  ghost predicate Free(s: string, pat: string) {
    forall i :: !OccursAt(s, pat, i)
  }

  /** `p` is the leftmost occurrence of `pat` in `s`. */
  ghost predicate FirstAt(s: string, pat: string, p: int) {
    OccursAt(s, pat, p) && forall q :: 0 <= q < p ==> !OccursAt(s, pat, q)
  }

  /** Leftmost occurrence of `pat` at or after offset `i`, or -1. */
  function IndexFrom(s: string, pat: string, i: nat): (r: int)
    requires i <= |s|
    ensures r == -1 ==> forall k :: i <= k ==> !OccursAt(s, pat, k)
    ensures r != -1 ==> i <= r && OccursAt(s, pat, r)
    ensures r != -1 ==> forall k :: i <= k < r ==> !OccursAt(s, pat, k)
    decreases |s| - i
  {
    if i + |pat| > |s| then -1
    else if s[i..i + |pat|] == pat then i
    else IndexFrom(s, pat, i + 1)
  }

  /** Go's `strings.Index`: the offset of the first occurrence, or -1. */
  function IndexOf(s: string, pat: string): (r: int)
    ensures r == -1 <==> Free(s, pat)
    ensures r != -1 ==> FirstAt(s, pat, r)
  {
    IndexFrom(s, pat, 0)
  }

  /** The first occurrence is the one `IndexOf` reports. */
  lemma IndexOfFirst(s: string, pat: string, p: int)
    requires FirstAt(s, pat, p)
    ensures IndexOf(s, pat) == p
  {
    var r := IndexOf(s, pat);
    assert r != -1 by { assert OccursAt(s, pat, p); }
    if r < p {
      assert OccursAt(s, pat, r);
    }
  }

  /** Go's `strings.Contains`. */
  function Contains(s: string, pat: string): (r: bool)
    ensures r <==> exists k :: OccursAt(s, pat, k)
  {
    IndexOf(s, pat) != -1
  }

  /** Go's `strings.HasPrefix`. */
  function HasPrefix(s: string, prefix: string): (r: bool)
    ensures r <==> OccursAt(s, prefix, 0)
  {
    |prefix| <= |s| && s[..|prefix|] == prefix
  }

  /** A prefix is what `strings.Index` finds at 0, and what remains when the
      text is the prefix followed by anything. */
  lemma HasPrefixIsIndexZero(s: string, prefix: string)
    ensures HasPrefix(s, prefix) <==> IndexOf(s, prefix) == 0
    ensures HasPrefix(s, prefix) <==> exists t :: s == prefix + t
  {
    if HasPrefix(s, prefix) {
      assert s == prefix + s[|prefix|..];
      IndexOfFirst(s, prefix, 0);
    }
    if exists t :: s == prefix + t {
      var t :| s == prefix + t;
      assert s[..|prefix|] == prefix;
    }
  }

  /** An occurrence in the suffix `s[k..]` is an occurrence in `s`, shifted by `k`. */
  lemma OccursInSuffix(s: string, pat: string, k: nat, j: int)
    requires k <= |s|
    requires 0 <= j
    ensures OccursAt(s[k..], pat, j) <==> OccursAt(s, pat, k + j)
  {
    if 0 <= j && j + |pat| <= |s| - k {
      assert s[k..][j..j + |pat|] == s[k + j..k + j + |pat|];
    }
  }

  /** A slice of a string free of `pat` is free of `pat` too. */
  lemma FreeSlice(s: string, pat: string, i: nat, j: nat)
    requires i <= j <= |s|
    requires forall k :: i <= k && k + |pat| <= j ==> !OccursAt(s, pat, k)
    ensures Free(s[i..j], pat)
  {
    forall q | OccursAt(s[i..j], pat, q)
      ensures false
    {
      forall m | 0 <= m < |pat|
        ensures s[i + q + m] == pat[m]
      {
        assert s[i..j][q..q + |pat|][m] == pat[m];
      }
      assert s[i + q..i + q + |pat|] == pat;
      assert OccursAt(s, pat, i + q);
    }
  }

  /** An occurrence of a pattern starts with an occurrence of each of its prefixes. */
  lemma PrefixOccurs(s: string, pat: string, n: nat, i: int)
    requires n <= |pat|
    requires OccursAt(s, pat, i)
    ensures OccursAt(s, pat[..n], i)
  {
    assert s[i..i + n] == s[i..i + |pat|][..n];
  }

  /** Every character of an occurrence appears in the string. */
  lemma OccurrenceCharacters(s: string, pat: string, i: int, k: nat)
    requires OccursAt(s, pat, i)
    requires k < |pat|
    ensures s[i + k] == pat[k]
  {
    assert s[i..i + |pat|][k] == pat[k];
  }

  /** Number of leading white-space characters of `s`. */
  function LeadingSpaces(s: string): (n: nat)
    ensures n <= |s|
    ensures forall k :: 0 <= k < n ==> IsSpace(s[k])
    ensures n < |s| ==> !IsSpace(s[n])
  {
    if |s| > 0 && IsSpace(s[0]) then 1 + LeadingSpaces(s[1..]) else 0
  }

  /** Number of trailing white-space characters of `s`. */
  function TrailingSpaces(s: string): (n: nat)
    ensures n <= |s|
    ensures forall k :: |s| - n <= k < |s| ==> IsSpace(s[k])
    ensures n < |s| ==> !IsSpace(s[|s| - n - 1])
  {
    if |s| > 0 && IsSpace(s[|s| - 1]) then 1 + TrailingSpaces(s[..|s| - 1]) else 0
  }

  /** Neither end of `s` is white space. */
  predicate IsTrimmed(s: string) {
    |s| == 0 || (!IsSpace(s[0]) && !IsSpace(s[|s| - 1]))
  }

  /** Go's `strings.TrimSpace`: the slice of `s` left after removing white
      space at both ends. The result starts where the leading white space ends
      and everything after it is white space. */
  function TrimSpace(s: string): (r: string)
    ensures IsTrimmed(r)
    ensures LeadingSpaces(s) + |r| <= |s|
    ensures r == s[LeadingSpaces(s)..LeadingSpaces(s) + |r|]
    ensures forall k :: LeadingSpaces(s) + |r| <= k < |s| ==> IsSpace(s[k])
  {
    var t := s[LeadingSpaces(s)..];
    t[..|t| - TrailingSpaces(t)]
  }

  /** Any slice `s[i..j]` with only white space around it and none at its own
      ends is the trimmed string. */
  lemma TrimSpaceUnique(s: string, i: nat, j: nat)
    requires i <= j <= |s|
    requires forall k :: 0 <= k < i ==> IsSpace(s[k])
    requires forall k :: j <= k < |s| ==> IsSpace(s[k])
    requires IsTrimmed(s[i..j])
    ensures TrimSpace(s) == s[i..j]
  {
    var lead := LeadingSpaces(s);
    var r := TrimSpace(s);
    if i < j {
      assert !IsSpace(s[i]) by { assert s[i..j][0] == s[i]; }
      assert !IsSpace(s[j - 1]) by { assert s[i..j][j - i - 1] == s[j - 1]; }
      assert lead == i;
      if |r| > 0 {
        assert !IsSpace(s[i + |r| - 1]) by { assert r[|r| - 1] == s[i + |r| - 1]; }
      }
    }
  }

  /** Trimming a trimmed string changes nothing. */
  lemma TrimSpaceIdempotent(s: string)
    requires IsTrimmed(s)
    ensures TrimSpace(s) == s
  {
    assert s[0..|s|] == s;
    TrimSpaceUnique(s, 0, |s|);
  }

  /** A trailing white-space character does not change the trimmed string. */
  lemma TrimSpaceDropsTrailingSpace(s: string, c: char)
    requires IsSpace(c)
    ensures TrimSpace(s + [c]) == TrimSpace(s)
  {
    var lead := LeadingSpaces(s);
    var r := TrimSpace(s);
    var t := s + [c];
    assert t[lead..lead + |r|] == s[lead..lead + |r|];
    TrimSpaceUnique(t, lead, lead + |r|);
  }

  /** Trimming never introduces an occurrence of a pattern. */
  lemma TrimSpaceKeepsFree(s: string, pat: string)
    requires Free(s, pat)
    ensures Free(TrimSpace(s), pat)
  {
    var lead := LeadingSpaces(s);
    var r := TrimSpace(s);
    FreeSlice(s, pat, lead, lead + |r|);
  }
}
